=== FILE: README.md ===
# inno-updater uninstall-log codec, in Dafny

This project models the binary codec of an Inno Setup uninstall log
(`unins000.dat`) as implemented in `src/model.rs` of inno-updater, and proves
properties of that model. It covers:

- **Header** (`Header::from_reader`). The 448-byte header block has three
  fixed-width text fields (64, 128 and 128 bytes), four little-endian
  integers, a 108-byte reserved gap and a CRC-32 at offset 444. The header is
  accepted only when three conditions hold: the CRC matches, the id is one of
  the two magic strings, and the version is at most 1048.
- **Records**:
  - `UninstallRecTyp::from` is the closed 17-way mapping of record-type codes.
  - `FileRec::from_reader` reads the record layout `u16` type, `u32` extra
    data, `u32` size and then the payload. Payloads above `0x8000000` bytes
    are rejected.
- **Embedded strings**:
  - `FileRec::get_string` reads the framed UTF-16LE path in a record payload.
    The frame is `0xFE`, a negative `i32` byte length, the string bytes, and
    a final `0xFF` as the payload's last byte.
  - `FileRec::rebase` swaps a path prefix. It re-encodes the path and builds a
    new payload: a fresh lead byte and size field, the new string bytes, and
    then every byte that followed the old string, shifted into place.

Every `panic!`, `assert!` and failed `expect` of the source becomes a
`Failure` of a `Result`, with an `Error` value naming the reason. The model
checks the failure conditions in the same order as the source. Text is a
sequence of Unicode scalar values, which is what a Rust `String` holds.
UTF-16 encoding and decoding are defined, and proved to be mutual inverses on
valid input. The model reads integer overflow as a debug build does:
negating `i32::MIN` is an error. Truncating casts are written out explicitly:
`new_size as i32` keeps the low 32 bits, and `i32 as usize` sign-extends to
64 bits.

The files are:

- `wrappers.dfy`: `Option` and `Result`.
- `bytes.dfy`: machine integers and their little-endian layout.
- `errors.dfy`: the `Error` values.
- `stream.dfy`: the byte reader.
- `utf16.dfy`: UTF-16.
- `header.dfy`: the header.
- `record.dfy`: the records.
- `embedded.dfy`: the embedded-string codec, plus the checked variant that
  closes the gaps listed under Findings.
- `findings.dfy`: concrete inputs on which the source's `rebase` builds a
  payload that `get_string` rejects.

A record occupies `10 + data_size` bytes: a `u16`, two `u32` values and the
payload (src/model.rs:168-181).

## Model

| member | source | states |
|---|---|---|
| LogHeader.FromReader | src/model.rs:52-97 | Fewer than 448 bytes is a short read. The header is accepted exactly when the three text fields decode, the CRC-32 of bytes [0,444) equals the `u32` at 444, the id is one of the two magic strings, and the version is at most 1048. On acceptance, every field is the value at its fixed offset, `num_recs` is the sign-extended `i32`, and exactly 448 bytes are consumed. |
| LogHeader.ReadText | src/model.rs:57-59 | A text field consumes exactly its fixed-width window. It succeeds exactly when the window is present and the text reader accepts it. |
| LogHeader.BlockLayout | src/model.rs:55-67 | Reading the fields one after another from the 448-byte buffer visits the windows at offsets 0, 64, 192, 320, 324, 328 and 332, and the CRC at 444. The CRC covers exactly bytes [0,444). |
| Stream.ReadExactWindow | src/model.rs:180-181 | `read_exact` of a window's length, on input that starts with that window, returns exactly the window and leaves everything after it unread. |
| Stream.ReadU16Encoded | src/model.rs:168 | `read_u16::<LittleEndian>` reads back the value whose two little-endian bytes start the input, and consumes exactly those two bytes. |
| Stream.ReadU32Encoded | src/model.rs:169-174 | `read_u32::<LittleEndian>` reads back the value whose four little-endian bytes start the input, and consumes exactly those four bytes. |
| Records.Code | src/model.rs:103-121 | Every record kind's discriminant is one of the 17 known codes. |
| Records.FromCode | src/model.rs:123-145 | `UninstallRecTyp::from` succeeds exactly on the 17 codes 0x01, 0x10, 0x11, 0x20 and 0x80 to 0x8C. The kind it returns has the input as its discriminant. |
| Records.CodeRoundTrip | src/model.rs:103-145 | Mapping a kind's discriminant back gives that kind. |
| Records.CodeInjective | src/model.rs:103-121 | Distinct record kinds have distinct codes. |
| Records.FromReader | src/model.rs:167-190 | A record is read exactly when its 10-byte head is present, the declared size is at most 0x8000000 and the payload is present, and the code is known. A larger declared size is rejected before any payload is read, and 0x8000000 itself is accepted. On success the payload has the declared length, and exactly `10 + size` bytes are consumed. |
| Records.ReadSerialized | src/model.rs:167-190 | Reading the layout of any record whose payload is within the ceiling gives that record back. It consumes exactly the record's bytes, whatever follows them. |
| Records.SerializedRead | src/model.rs:167-190 | Whatever is read as a record is exactly that record's layout followed by the unread rest, so reading is injective on records. |
| Bytes.ToUnsigned | src/model.rs:238-240 | Reinterpreting an `i32` as a `u32` and back gives the original value. |
| Bytes.WrapI32 | src/model.rs:238-240 | `new_size as i32` is the size itself whenever the size fits an `i32`. |
| Bytes.WrapI32Bits | src/model.rs:238-240 | The bits of `new_size as i32` are `new_size` modulo 2^32. |
| Bytes.UsizeFromI32 | src/model.rs:61 | `as usize` of the stored `i32` is a 64-bit value. Its low 32 bits are the bits of the `i32`, and its top bit is set exactly when the `i32` is negative, which is sign extension. A non-negative count is kept as is. |
| Bytes.EncodeU16 | src/model.rs:245 | The two bytes written for a `u16` read back as that `u16`. |
| Bytes.EncodeU32 | src/model.rs:238-240 | The four bytes written for a `u32` read back as that `u32`. |
| Bytes.EncodeI32 | src/model.rs:238-240 | The four bytes written by `write_i32::<LittleEndian>` read back as that `i32`. |
| Bytes.EncodeU16At | src/model.rs:214 | Any two bytes are the encoding of the `u16` they hold. |
| Bytes.EncodeU32At | src/model.rs:168-174 | Any four bytes are the encoding of the `u32` they hold. |
| Bytes.EncodeI32At | src/model.rs:199-201 | Any four bytes are the encoding of the `i32` they hold. |
| Utf16.EncodeScalar | src/model.rs:229 | A scalar value encodes to one unit below U+10000, and to two units above. |
| Utf16.EncodeCombine | src/model.rs:217 | A high surrogate followed by a low surrogate encodes back from the scalar value they combine to. |
| Utf16.CombineEncode | src/model.rs:229 | A scalar value above U+FFFF encodes to a high and a low surrogate that combine back to it. |
| Utf16.Encode | src/model.rs:229 | `encode_utf16` yields at least one and at most two units per scalar value. |
| Utf16.DecodeEncode | src/model.rs:217-229 | `String::from_utf16` recovers every text from its `encode_utf16` units. |
| Utf16.EncodeDecode | src/model.rs:217-229 | Every unit sequence that `String::from_utf16` accepts is the encoding of the text it returns, so decoding is injective. |
| Utf16.EncodeAppend | src/model.rs:226-229 | Encoding a concatenation gives the concatenation of the encodings. |
| Utf16.EncodeBmpLength | src/model.rs:229-230 | A text made only of scalars below U+10000 encodes to one unit per scalar. |
| Utf16.UnitsToBytes | src/model.rs:243-246 | `write_u16_into` writes two bytes per unit. |
| Utf16.BytesToUnits | src/model.rs:211-214 | `read_u16_into` reads one unit per two bytes. |
| Utf16.BytesUnitsRoundTrip | src/model.rs:214-245 | Reading back the bytes written for a unit sequence gives those units. |
| Utf16.UnitsBytesRoundTrip | src/model.rs:214-245 | Any even-length byte string is the bytes written for the units read from it. |
| EmbeddedString.Frame | src/model.rs:231-252 | A rebuilt payload is 5 bytes longer than the string bytes and the tail together. |
| EmbeddedString.FrameHead | src/model.rs:235-241 | A rebuilt payload starts with `0xFE`, and its size field reads back as the value written. |
| EmbeddedString.FrameFields | src/model.rs:243-252 | In a rebuilt payload, the string bytes sit at [5, 5+n). The tail follows them, and the last byte of a non-empty tail is the payload's last byte. |
| EmbeddedString.ReplacedInverse | src/model.rs:224-227 | Swapping the prefix `from` for `to` and then back restores the path. |
| EmbeddedString.GetString | src/model.rs:192-220 | An empty payload is a short read. A first byte other than `0xFE` is rejected, a non-negative size is rejected, and a last byte other than `0xFF` is rejected, in that order. On success, `old_size` is minus the size field and the string lies within the payload. |
| EmbeddedString.GetStringSucceedsIff | src/model.rs:192-220 | `get_string` succeeds exactly on payloads that are framed. Framed means: lead `0xFE`, a size field that is negative but not `i32::MIN`, an even magnitude, the string within the payload, a last byte `0xFF`, and string bytes that are valid UTF-16. |
| EmbeddedString.GetStringFramed | src/model.rs:208-219 | On a framed payload, `get_string` returns the text decoded from bytes [5, 5+old_size), together with `old_size`. |
| EmbeddedString.FramedReframes | src/model.rs:196-219 | A payload that starts with `0xFE` and a size field `-n`, and whose `n` string bytes (an even count) decode to a text, consists of the lead byte, minus the UTF-16 byte length of that text, the text's bytes, and the rest of the payload. |
| EmbeddedString.GetStringReframes | src/model.rs:192-220 | What `get_string` accepts is a payload laid out exactly as `rebase` would lay out the same text over the same tail. |
| EmbeddedString.GetStringOfFields | src/model.rs:196-219 | `get_string` returns the text and size whenever the lead byte, the size field, the even and in-range size, the last byte and the decodable string bytes are in place. |
| EmbeddedString.FrameUnitsGetString | src/model.rs:196-219 | `get_string` reads back any decodable non-empty units framed with minus their byte length, when the tail ends in `0xFF`. |
| EmbeddedString.FrameGetString | src/model.rs:196-219 | `get_string` reads back any non-empty text framed with minus its UTF-16 byte length, when the tail ends in `0xFF`. |
| EmbeddedString.RebuildKeeps | src/model.rs:229-254 | The payload rebuilt around new units keeps the type and extra data. Its length is `old_len - old_size + new_size`. |
| EmbeddedString.RebuildHead | src/model.rs:235-241 | The rebuilt payload starts with `0xFE`, and its size field holds `-(new_size as i32)`. |
| EmbeddedString.RebuildBody | src/model.rs:243-252 | The rebuilt payload holds the new string bytes at [5, 5+new_size), followed by the old bytes from `5 + old_size` on. |
| EmbeddedString.RebuildRestores | src/model.rs:229-254 | Rebuilding around the units and tail that a payload already frames gives back that payload. |
| EmbeddedString.Rebase | src/model.rs:222-255 | `rebase` fails exactly when `get_string` fails, with the same error, or when negating `new_size as i32` overflows. |
| EmbeddedString.RebaseBuilds | src/model.rs:222-255 | Once the string has been read, `rebase` builds the payload around the re-encoded replaced path. |
| EmbeddedString.RebaseKeepsTypeAndExtra | src/model.rs:222-255 | `rebase` leaves `typ` and `extra_data` unchanged. |
| EmbeddedString.RebaseLength | src/model.rs:229-231 | The new payload length is `old_len - old_size + new_size`, where `new_size` is twice the UTF-16 length of the new path. |
| EmbeddedString.RebaseHead | src/model.rs:235-241 | Byte 0 of the new payload is `0xFE`. Bytes [1,5) hold `-(new_size as i32)`, which is `-new_size` whenever `new_size` fits an `i32`. |
| EmbeddedString.RebaseSplices | src/model.rs:243-252 | Bytes [5, 5+new_size) are the UTF-16LE bytes of the new path. The bytes from `5 + new_size` on are exactly the old bytes from `5 + old_size` on. |
| EmbeddedString.RebaseNoMatchIsIdentity | src/model.rs:223-254 | When the path does not start with `from`, `rebase` rebuilds a payload identical to the original, byte for byte. |
| EmbeddedString.RebaseMatchReplacesPrefix | src/model.rs:224-231 | When the path starts with `from`, the new path is `to` followed by the rest of the path. The payload length changes by `2 * (|utf16(to)| - |utf16(from)|)`. |
| CheckedRebase.GetStringChecked | src/model.rs:204-206 | The corrected read agrees with `get_string` wherever it succeeds. It also requires the trailing `0xFF` to lie after the string, and it succeeds on every such payload that `get_string` accepts. |
| CheckedRebase.RebaseChecked | src/model.rs:222-255 | After a checked read, the corrected rebase succeeds exactly when the new path is non-empty and its byte length fits an `i32`. |
| CheckedRebase.RebaseCheckedOfSegment | src/model.rs:222-255 | Once the string has been read and the new path passes both checks, the corrected rebase builds the payload around the re-encoded new path. |
| CheckedRebase.RebaseCheckedAgrees | src/model.rs:222-255 | Wherever the corrected rebase succeeds, it builds the same record as `rebase`. |
| CheckedRebase.RebaseCheckedRoundTrip | src/model.rs:222-255 | A payload built by the corrected rebase reads back as the new path, with the size field holding its byte length. |
| CheckedRebase.RebaseReadsBack | src/model.rs:222-255 | `rebase` builds a payload that `get_string` reads back as `to` followed by the rest of the path, provided three conditions hold: the trailing sentinel lies after the old string, the new path is non-empty, and the new path's byte length fits an `i32`. |
| CheckedRebase.GetStringCheckedSize | src/model.rs:204-219 | A checked read yields a non-empty string whose byte length is `old_size`, which fits an `i32`. |
| CheckedRebase.RebaseCheckedKeepsTail | src/model.rs:243-254 | The corrected rebase keeps the type, the extra data and every byte after the string. |
| CheckedRebase.RebaseCheckedBack | src/model.rs:222-255 | Rebasing a rebased payload from `to` back to `from` rebuilds it around the original path. |
| CheckedRebase.RebaseCheckedInverse | src/model.rs:222-255 | Rebasing from `from` to `to` and then from `to` back to `from` restores the original record, byte for byte. |
| Findings.MinusTwoBytes | src/model.rs:199-201 | The size field -2 is the little-endian bytes FE FF FF FF. |
| Findings.PathAString | src/model.rs:192-220 | The sample payload holds the one-character path "a". |
| Findings.SharedSentinelIsLost | src/model.rs:204-206 | `get_string` accepts a payload whose final `0xFF` is also the last byte of the string. `rebase` then builds a payload without a trailing `0xFF`, which `get_string` rejects. The corrected codec refuses the original payload. |
| Findings.SizeFieldWraps | src/model.rs:238-240 | A new path of 2^31 characters makes `new_size as i32` wrap to 0. `rebase` writes a size field that `get_string` rejects, and the corrected codec reports the overflow. |
| Findings.EmptyPathUnreadable | src/model.rs:224-240 | Rebasing the path "a" to the empty path writes a size field of 0, which `get_string` rejects. The corrected codec refuses the empty path. |

## Left out

- The `fmt::Debug` impls of `Header` and `FileRec` (src/model.rs:26-49 and 154-164) only format values.
- The `Read`/`Write` trait objects and the `byteorder` calls become pure functions over byte sequences: a reader is the sequence of bytes still unread.
- The CRC-32 digest comes from an external crate and is not part of this model. `LogHeader.FromReader` takes it as a parameter `crc32`, applied to the 444-byte prefix.
- `strings::read_utf8_string` is not part of this model. `LogHeader.FromReader` takes it as a parameter `readText`, from a fixed-width byte window to an optional string. The UTF-8 semantics of the header fields are therefore not modelled.
- `str::starts_with` on UTF-8 text becomes a prefix test on scalar-value sequences. The two agree, because both arguments are valid text.
- Iterating over `num_recs` records and bounding them by `end_offset` is the caller's concern, and so is writing the log back. Neither appears in `src/model.rs`.
- Allocation failure of `vec!` and the release-build wrap-around of `-size` are not modelled. Arithmetic overflow is read as a debug build reads it: negating `i32::MIN` is an error.
- `usize` is taken to be 64 bits wide. This matters only for the sign extension in `num_recs as usize`.

## Findings

| source | as written | input that shows it | evidently intended | confidence | as-written member | corrected member |
|---|---|---|---|---|---|---|
| src/model.rs:204-206 | `get_string` checks only that the payload's last byte is `0xFF`. It does not check that this byte lies after the string, so the sentinel can be the string's last byte. `rebase` then copies the empty rest of the payload, and the result no longer ends in `0xFF`. | payload FE FE FF FF FF 01 FF (the path U+FF01), rebased from U+FF01 to "a" | The trailing `0xFF` lies after the string, so a rebased payload always reads back. | low: not executed; real logs may never end a path at the payload's end | Findings.SharedSentinelIsLost | CheckedRebase.RebaseChecked |
| src/model.rs:238-240 | `-(new_size as i32)` truncates a byte length of 2^31 or more. For 2^32 bytes it writes the size field 0. | payload FE FE FF FF FF 61 00 FF (the path "a"), rebased from "a" to 2^31 copies of "a" | A new path that the size field cannot describe is refused. | low: not executed; needs a path of 2^31 UTF-16 units | Findings.SizeFieldWraps | CheckedRebase.RebaseChecked |
| src/model.rs:224-240 | Rebasing to an empty path writes the size field 0, which `get_string` rejects as non-negative. | payload FE FE FF FF FF 61 00 FF (the path "a"), rebased from "a" to "" | A rebase that would leave an empty path is refused. | low: not executed; callers may never pass such prefixes | Findings.EmptyPathUnreadable | CheckedRebase.RebaseChecked |

For all three findings, `CheckedRebase.RebaseCheckedRoundTrip` proves the
intended property of the corrected codec: the payload it builds reads back as
the rebased path. `CheckedRebase.RebaseCheckedInverse` proves that rebasing
there and back restores the original record. `CheckedRebase.RebaseReadsBack`
states the same read-back for the source's own `rebase`, on the inputs that
avoid all three gaps.

=== FILE: bytes.dfy ===
/** Machine integers as bounded subsets of `int`, and their little-endian
    byte layout. Wrap-around and sign reinterpretation are written out
    explicitly wherever the decoder relies on them. */
module Bytes {

  type byte = x: int | 0 <= x < 0x100
  type u16 = x: int | 0 <= x < 0x1_0000
  type u32 = x: int | 0 <= x < 0x1_0000_0000
  type i32 = x: int | -0x8000_0000 <= x < 0x8000_0000

  const MinI32: int := -0x8000_0000
  const MaxI32: int := 0x7FFF_FFFF

  /** Reinterprets the bits of a `u32` as a two's-complement `i32`. */
  function ToSigned(u: u32): i32 {
    if u < 0x8000_0000 then u else u - 0x1_0000_0000
  }

  /** Reinterprets the bits of an `i32` as a `u32`. */
  function ToUnsigned(v: i32): (u: u32)
    ensures ToSigned(u) == v
  {
    if v < 0 then v + 0x1_0000_0000 else v
  }

  /** Rust's truncating cast `n as i32` of a `usize`: keep the low 32 bits,
      here by dropping whole multiples of 2^32. */
  function WrapI32(n: nat): (v: i32)
    ensures n <= MaxI32 ==> v == n
  {
    if n < 0x1_0000_0000 then ToSigned(n) else WrapI32(n - 0x1_0000_0000)
  }

  /** The bits of `n as i32` are those of `n` modulo 2^32. */
  lemma {:induction false} WrapI32Bits(n: nat)
    ensures ToUnsigned(WrapI32(n)) == n % 0x1_0000_0000
  {
    if n >= 0x1_0000_0000 {
      WrapI32Bits(n - 0x1_0000_0000);
    }
  }

  /** Rust's `v as usize` of an `i32` on a 64-bit target: sign extension. */
  function UsizeFromI32(v: i32): (n: nat)
    ensures 0 <= v ==> n == v
    ensures v < 0 ==> n == 0x1_0000_0000_0000_0000 + v
    ensures n < 0x1_0000_0000_0000_0000 && n % 0x1_0000_0000 == ToUnsigned(v)
    ensures v < 0 <==> n >= 0x8000_0000_0000_0000
  {
    if v < 0 then v + 0x1_0000_0000_0000_0000 else v
  }

  /** The little-endian `u16` stored at offset `i`. */
  function U16At(s: seq<byte>, i: nat): u16
    requires i + 2 <= |s|
  {
    s[i] as int + 0x100 * s[i + 1] as int
  }

  /** The little-endian `u32` stored at offset `i`. */
  function U32At(s: seq<byte>, i: nat): u32
    requires i + 4 <= |s|
  {
    U16At(s, i) as int + 0x1_0000 * U16At(s, i + 2) as int
  }

  /** The little-endian `i32` stored at offset `i`. */
  function I32At(s: seq<byte>, i: nat): i32
    requires i + 4 <= |s|
  {
    ToSigned(U32At(s, i))
  }

  /** Two byte pairs holding the same `u16` are equal. */
  lemma U16Unique(s: seq<byte>, t: seq<byte>)
    requires |s| == 2 && |t| == 2 && U16At(s, 0) == U16At(t, 0)
    ensures s == t
  {
    assert s[1] == t[1];
  }

  /** Two byte quadruples holding the same `u32` are equal. */
  lemma U32Unique(s: seq<byte>, t: seq<byte>)
    requires |s| == 4 && |t| == 4 && U32At(s, 0) == U32At(t, 0)
    ensures s == t
  {
    assert U16At(s, 2) == U16At(t, 2);
    U16Unique(s[..2], t[..2]);
    U16Unique(s[2..], t[2..]);
    assert s == s[..2] + s[2..] && t == t[..2] + t[2..];
  }

  lemma U16Injective()
    ensures forall s: seq<byte>, t: seq<byte> :: |s| == 2 && |t| == 2 && U16At(s, 0) == U16At(t, 0) ==> s == t
  {
    forall s: seq<byte>, t: seq<byte> | |s| == 2 && |t| == 2 && U16At(s, 0) == U16At(t, 0) ensures s == t {
      U16Unique(s, t);
    }
  }

  lemma U32Injective()
    ensures forall s: seq<byte>, t: seq<byte> :: |s| == 4 && |t| == 4 && U32At(s, 0) == U32At(t, 0) ==> s == t
  {
    forall s: seq<byte>, t: seq<byte> | |s| == 4 && |t| == 4 && U32At(s, 0) == U32At(t, 0) ensures s == t {
      U32Unique(s, t);
    }
  }

  /** `write_u16::<LittleEndian>`: the only two bytes that `U16At` reads
      back as `v` (low byte first). */
  function EncodeU16(v: u16): (s: seq<byte>)
    ensures |s| == 2 && U16At(s, 0) == v
  {
    U16Injective();
    assert U16At([v % 0x100, v / 0x100], 0) == v;
    var s :| |s| == 2 && U16At(s, 0) == v; s
  }

  /** `write_u32::<LittleEndian>`: the only four bytes that `U32At` reads
      back as `v`. */
  function EncodeU32(v: u32): (s: seq<byte>)
    ensures |s| == 4 && U32At(s, 0) == v
  {
    U32Injective();
    var lo, hi := EncodeU16(v % 0x1_0000), EncodeU16(v / 0x1_0000);
    assert U16At(lo + hi, 0) == U16At(lo, 0) && U16At(lo + hi, 2) == U16At(hi, 0);
    var s :| |s| == 4 && U32At(s, 0) == v; s
  }

  /** `write_i32::<LittleEndian>`: the two's-complement bits as a `u32`. */
  function EncodeI32(v: i32): (s: seq<byte>)
    ensures |s| == 4 && I32At(s, 0) == v
  {
    EncodeU32(ToUnsigned(v))
  }

  /** The bytes of a `u16` field are the encoding of its value. */
  lemma EncodeU16At(s: seq<byte>, i: nat)
    requires i + 2 <= |s|
    ensures EncodeU16(U16At(s, i)) == s[i..i + 2]
  {
    U16Unique(EncodeU16(U16At(s, i)), s[i..i + 2]);
  }

  lemma EncodeU32At(s: seq<byte>, i: nat)
    requires i + 4 <= |s|
    ensures EncodeU32(U32At(s, i)) == s[i..i + 4]
  {
    U32Unique(EncodeU32(U32At(s, i)), s[i..i + 4]);
  }

  lemma EncodeI32At(s: seq<byte>, i: nat)
    requires i + 4 <= |s|
    ensures EncodeI32(I32At(s, i)) == s[i..i + 4]
  {
    EncodeU32At(s, i);
  }
}

=== FILE: embedded.dfy ===
/** The embedded-string codec of a record payload (`FileRec::get_string`,
    `FileRec::rebase`). A payload carrying a path is framed as

      0xFE, size: i32 (negative), UTF-16LE bytes [-size], ..., 0xFF

    where the trailing 0xFF is the last byte of the whole payload. Rebasing
    replaces a path prefix and splices the re-encoded string into a fresh
    payload, copying every byte after the old string unchanged. */
module EmbeddedString {
  import opened Wrappers
  import opened Bytes
  import opened Errors
  import opened Utf16
  import opened Records

  const LeadSentinel: byte := 0xFE
  const TrailSentinel: byte := 0xFF

  /** Offset of the first UTF-16 byte: after the lead sentinel and the size. */
  const SegmentStart: nat := 5

  /** A decoded string and the byte length of its UTF-16 encoding. */
  datatype Segment = Segment(text: Text, oldSize: nat)

  /** A payload laid out as lead sentinel, size field, string bytes and then
      the rest of the payload. */
  function Frame(sizeField: i32, body: seq<byte>, tail: seq<byte>): (data: seq<byte>)
    ensures |data| == SegmentStart + |body| + |tail|
  {
    [LeadSentinel] + EncodeI32(sizeField) + body + tail
  }

  lemma DoubleIsEven(n: nat)
    ensures (2 * n) % 2 == 0
  {
  }

  /** The head of a frame: the lead sentinel and the size field. */
  lemma FrameHead(sizeField: i32, body: seq<byte>, tail: seq<byte>)
    ensures var data := Frame(sizeField, body, tail);
      data[0] == LeadSentinel && I32At(data, 1) == sizeField
  {
    var data := Frame(sizeField, body, tail);
    assert data[1..SegmentStart] == EncodeI32(sizeField);
    assert I32At(data, 1) == I32At(EncodeI32(sizeField), 0);
  }

  /** Where the string bytes and the rest of a frame sit. */
  lemma FrameFields(sizeField: i32, body: seq<byte>, tail: seq<byte>)
    ensures var data := Frame(sizeField, body, tail);
      && data[SegmentStart..SegmentStart + |body|] == body
      && data[SegmentStart + |body|..] == tail
      && (0 < |tail| ==> data[|data| - 1] == tail[|tail| - 1])
  {
  }

  /** `str::starts_with` on texts. */
  predicate StartsWith(path: Text, prefix: Text) {
    |prefix| <= |path| && path[..|prefix|] == prefix
  }

  /** The path after rebasing: `from` swapped for `to` when the path starts
      with `from`, the path itself otherwise. */
  function Replaced(path: Text, from: Text, to: Text): Text {
    if StartsWith(path, from) then to + path[|from|..] else path
  }

  /** Swapping a prefix `from` for `to` and then `to` back for `from`
      restores the path. */
  lemma ReplacedInverse(path: Text, from: Text, to: Text)
    requires StartsWith(path, from)
    ensures StartsWith(Replaced(path, from, to), to)
    ensures Replaced(Replaced(path, from, to), to, from) == path
  {
    var path' := Replaced(path, from, to);
    assert path'[|to|..] == path[|from|..];
    assert path == from + path[|from|..];
  }

  /** The framing `get_string` accepts, stated on absolute offsets. */
  predicate Framed(data: seq<byte>) {
    && SegmentStart <= |data|
    && data[0] == LeadSentinel
    && MinI32 < I32At(data, 1) < 0
    && (-I32At(data, 1)) % 2 == 0
    && SegmentStart - I32At(data, 1) <= |data|
    && data[|data| - 1] == TrailSentinel
    && Decode(BytesToUnits(data[SegmentStart..SegmentStart - I32At(data, 1)])).Some?
  }

  /** `FileRec::get_string`: checks the lead sentinel, the sign of the size
      field, the trailing sentinel, that the size can be negated, that it is
      even and that the string fits, then decodes the UTF-16 bytes. */
  function GetString(data: seq<byte>): (r: Result<Segment, Error>)
    ensures |data| == 0 ==> r == Failure(ShortRead)
    ensures 1 <= |data| && data[0] != LeadSentinel ==> r == Failure(BadLeadSentinel)
    ensures 1 <= |data| < SegmentStart && data[0] == LeadSentinel ==> r == Failure(ShortRead)
    ensures SegmentStart <= |data| && data[0] == LeadSentinel && I32At(data, 1) >= 0
      ==> r == Failure(NonNegativeSize)
    ensures (SegmentStart <= |data| && data[0] == LeadSentinel && I32At(data, 1) < 0
             && data[|data| - 1] != TrailSentinel) ==> r == Failure(BadTrailSentinel)
    ensures r.Success? ==> 0 < r.value.oldSize == -(I32At(data, 1) as int) && SegmentStart + r.value.oldSize <= |data|
  {
    if |data| < 1 then Failure(ShortRead)                        // read_u8
    else if data[0] != LeadSentinel then Failure(BadLeadSentinel)
    else if |data| < SegmentStart then Failure(ShortRead)        // read_i32
    else
      var size := I32At(data, 1);
      if size >= 0 then Failure(NonNegativeSize)
      else if data[|data| - 1] != TrailSentinel then Failure(BadTrailSentinel)
      else if size == MinI32 then Failure(SizeOverflow)         // `-size` overflows
      else if (-size) % 2 != 0 then Failure(OddSize)
      else if SegmentStart - size > |data| then Failure(SegmentOutOfRange)
      else
        match Decode(BytesToUnits(data[SegmentStart..SegmentStart - size]))
        case None => Failure(InvalidUtf16)
        case Some(text) => Success(Segment(text, -size))
  }

  /** `get_string` succeeds exactly on the well-framed payloads. */
  lemma GetStringSucceedsIff(data: seq<byte>)
    ensures GetString(data).Success? <==> Framed(data)
  {
  }

  /** On a well-framed payload, `get_string` returns the decoded string
      together with the magnitude of the size field. */
  lemma GetStringFramed(data: seq<byte>)
    requires Framed(data)
    ensures var n := -I32At(data, 1);
      GetString(data) == Success(Segment(Decode(BytesToUnits(data[SegmentStart..SegmentStart + n])).value, n))
  {
  }

  /** A payload that starts with the lead sentinel and a size field -n,
      and whose n (even) string bytes decode to a text, is the frame of that
      text: n is the byte length of the text's encoding, whose bytes are the
      string bytes. */
  lemma FramedReframes(data: seq<byte>, n: nat, text: Text)
    requires SegmentStart + n <= |data| && n % 2 == 0 && data[0] == LeadSentinel && I32At(data, 1) == -(n as int)
    requires Decode(BytesToUnits(data[SegmentStart..SegmentStart + n])) == Some(text)
    ensures n == 2 * |Encode(text)|
    ensures data == Frame(-(2 * |Encode(text)|), UnitsToBytes(Encode(text)), data[SegmentStart + n..])
  {
    var body := data[SegmentStart..SegmentStart + n];
    var tail := data[SegmentStart + n..];
    EncodedBody(body, text);
    var size := I32At(data, 1);
    assert size == -(2 * |Encode(text)|);
    assert data[1..SegmentStart] == EncodeI32(size) by {
      EncodeI32At(data, 1);
    }
    FrameOfParts(data, size, body, tail);
  }

  /** Even-length string bytes that decode to a text are exactly the bytes
      of that text's encoding. */
  lemma EncodedBody(body: seq<byte>, text: Text)
    requires |body| % 2 == 0 && Decode(BytesToUnits(body)) == Some(text)
    ensures UnitsToBytes(Encode(text)) == body
  {
    EncodeDecode(BytesToUnits(body));
    UnitsBytesRoundTrip(body);
  }

  /** A payload made of the lead sentinel, the bytes of a size field, and
      then a body and a tail is the frame of those parts. */
  lemma FrameOfParts(data: seq<byte>, size: i32, body: seq<byte>, tail: seq<byte>)
    requires SegmentStart <= |data| && data[0] == LeadSentinel
    requires data[1..SegmentStart] == EncodeI32(size)
    requires SegmentStart + |body| <= |data|
    requires data[SegmentStart..SegmentStart + |body|] == body && data[SegmentStart + |body|..] == tail
    ensures data == Frame(size, body, tail)
  {
    assert data == [data[0]] + data[1..SegmentStart] + body + tail;
  }

  /** What `get_string` accepts is the frame of the string it returns: the
      size field holds minus the byte length of the string's UTF-16
      encoding, those bytes follow it, and what follows them is the rest of
      the payload. */
  lemma GetStringReframes(data: seq<byte>)
    requires GetString(data).Success?
    ensures var seg := GetString(data).value;
      && seg.oldSize == 2 * |Encode(seg.text)|
      && data == Frame(-(2 * |Encode(seg.text)|), UnitsToBytes(Encode(seg.text)), data[SegmentStart + seg.oldSize..])
  {
    SegmentReframes(data, GetString(data).value);
  }

  /** `GetStringReframes`, for the segment `get_string` returned. */
  lemma SegmentReframes(data: seq<byte>, seg: Segment)
    requires GetString(data) == Success(seg)
    ensures seg.oldSize == 2 * |Encode(seg.text)| && SegmentStart + seg.oldSize <= |data|
    ensures data == Frame(-(2 * |Encode(seg.text)|), UnitsToBytes(Encode(seg.text)), data[SegmentStart + seg.oldSize..])
  {
    assert && Framed(data) && seg.oldSize == -I32At(data, 1)
           && Decode(BytesToUnits(data[SegmentStart..SegmentStart + seg.oldSize])) == Some(seg.text) by {
      GetStringSucceedsIff(data);
      GetStringFramed(data);
    }
    FramedSegmentReframes(data, seg);
  }

  /** `FramedReframes`, stated for a segment. */
  lemma FramedSegmentReframes(data: seq<byte>, seg: Segment)
    requires Framed(data) && seg.oldSize == -I32At(data, 1)
    requires Decode(BytesToUnits(data[SegmentStart..SegmentStart + seg.oldSize])) == Some(seg.text)
    ensures seg.oldSize == 2 * |Encode(seg.text)| && SegmentStart + seg.oldSize <= |data|
    ensures data == Frame(-(2 * |Encode(seg.text)|), UnitsToBytes(Encode(seg.text)), data[SegmentStart + seg.oldSize..])
  {
    FramedReframes(data, seg.oldSize, seg.text);
  }

  /** `get_string` returns exactly the string whose bytes follow a size
      field holding minus their (even, positive) length, when the payload
      ends in the trailing sentinel. */
  lemma GetStringOfFields(data: seq<byte>, size: nat, body: seq<byte>, text: Text)
    requires 0 < size <= MaxI32 && size % 2 == 0
    requires SegmentStart + size <= |data|
    requires data[0] == LeadSentinel && I32At(data, 1) == -(size as int)
    requires data[SegmentStart..SegmentStart + size] == body
    requires data[|data| - 1] == TrailSentinel
    requires Decode(BytesToUnits(body)) == Some(text)
    ensures GetString(data) == Success(Segment(text, size))
  {
    assert Framed(data);
    GetStringFramed(data);
  }

  /** `get_string` reads back any decodable, non-empty unit sequence framed
      with minus its byte length, provided the payload still ends in the
      trailing sentinel after it. */
  lemma FrameUnitsGetString(units: seq<Unit>, text: Text, tail: seq<byte>)
    requires Decode(units) == Some(text)
    requires 0 < |units| && 2 * |units| <= MaxI32
    requires 0 < |tail| && tail[|tail| - 1] == TrailSentinel
    ensures var size := 2 * |units|;
      GetString(Frame(-size, UnitsToBytes(units), tail)) == Success(Segment(text, size))
  {
    var size := 2 * |units|;
    var body := UnitsToBytes(units);
    FrameHead(-size, body, tail);
    FrameFields(-size, body, tail);
    BytesUnitsRoundTrip(units);
    assert size % 2 == 0 by {
      DoubleIsEven(|units|);
    }
    GetStringOfFields(Frame(-size, body, tail), size, body, text);
  }

  /** Conversely to `GetStringReframes`, `get_string` reads back any
      non-empty text framed with minus its byte length, as long as the
      payload still ends in the trailing sentinel after it. */
  lemma FrameGetString(text: Text, tail: seq<byte>)
    requires 0 < |text|
    requires 2 * |Encode(text)| <= MaxI32
    requires 0 < |tail| && tail[|tail| - 1] == TrailSentinel
    ensures var size := 2 * |Encode(text)|;
      GetString(Frame(-size, UnitsToBytes(Encode(text)), tail)) == Success(Segment(text, size))
  {
    DecodeEncode(text);
    FrameUnitsGetString(Encode(text), text, tail);
  }

  /** The record `rebase` builds around the new UTF-16 units: the lead
      sentinel, the size field `-(new_size as i32)`, the new bytes, then the
      old payload's bytes after its `oldSize`-byte string. `new_size as i32`
      is the byte length itself when that fits an `i32`; otherwise it keeps
      the low 32 bits, and negating `i32::MIN` overflows. */
  function Rebuild(rec: FileRec, oldSize: nat, units: seq<Unit>): (r: Result<FileRec, Error>)
    requires SegmentStart + oldSize <= |rec.data|
  {
    var newSize := 2 * |units|;
    var tail := rec.data[SegmentStart + oldSize..];
    if newSize <= MaxI32 then Success(rec.(data := Frame(-newSize, UnitsToBytes(units), tail)))
    else
      var sizeField := WrapI32(newSize);
      if sizeField == MinI32 then Failure(SizeOverflow)
      else Success(rec.(data := Frame(-sizeField, UnitsToBytes(units), tail)))
  }

  /** A rebuilt record keeps the type and extra data, and its payload is
      the old one less the old string's bytes plus the new string's. */
  lemma RebuildKeeps(rec: FileRec, oldSize: nat, units: seq<Unit>)
    requires SegmentStart + oldSize <= |rec.data|
    requires Rebuild(rec, oldSize, units).Success?
    ensures var rec' := Rebuild(rec, oldSize, units).value;
      && rec'.typ == rec.typ && rec'.extraData == rec.extraData
      && |rec'.data| == |rec.data| - oldSize + 2 * |units|
  {
  }

  /** A rebuilt payload starts with the lead sentinel and the size field
      `-(new_size as i32)`. */
  lemma RebuildHead(rec: FileRec, oldSize: nat, units: seq<Unit>)
    requires SegmentStart + oldSize <= |rec.data|
    requires Rebuild(rec, oldSize, units).Success?
    ensures var data' := Rebuild(rec, oldSize, units).value.data;
      data'[0] == LeadSentinel && I32At(data', 1) == -WrapI32(2 * |units|)
  {
    var newSize := 2 * |units|;
    var tail := rec.data[SegmentStart + oldSize..];
    if newSize <= MaxI32 {
      FrameHead(-newSize, UnitsToBytes(units), tail);
    } else {
      FrameHead(-WrapI32(newSize), UnitsToBytes(units), tail);
    }
  }

  /** In a rebuilt payload the new UTF-16 bytes follow the size field, and
      the old payload's bytes after its string follow them. */
  lemma RebuildBody(rec: FileRec, oldSize: nat, units: seq<Unit>)
    requires SegmentStart + oldSize <= |rec.data|
    requires Rebuild(rec, oldSize, units).Success?
    ensures var data' := Rebuild(rec, oldSize, units).value.data;
      var newSize := 2 * |units|;
      && data'[SegmentStart..SegmentStart + newSize] == UnitsToBytes(units)
      && data'[SegmentStart + newSize..] == rec.data[SegmentStart + oldSize..]
  {
    var newSize := 2 * |units|;
    var tail := rec.data[SegmentStart + oldSize..];
    if newSize <= MaxI32 {
      FrameFields(-newSize, UnitsToBytes(units), tail);
    } else {
      FrameFields(-WrapI32(newSize), UnitsToBytes(units), tail);
    }
  }

  /** Rebuilding a record around the units that another record's payload
      frames, over the same tail, restores that record. */
  lemma RebuildRestores(rec: FileRec, rec': FileRec, oldSize': nat, units: seq<Unit>, tail: seq<byte>)
    requires SegmentStart + oldSize' <= |rec'.data| && rec'.data[SegmentStart + oldSize'..] == tail
    requires rec'.typ == rec.typ && rec'.extraData == rec.extraData
    requires 2 * |units| <= MaxI32
    requires rec.data == Frame(-(2 * |units|), UnitsToBytes(units), tail)
    ensures Rebuild(rec', oldSize', units) == Success(rec)
  {
  }

  /** `FileRec::rebase` as the source writes it: decode the string, replace
      the prefix, re-encode and rebuild the payload around the new string. */
  function Rebase(rec: FileRec, from: Text, to: Text): (r: Result<FileRec, Error>)
    ensures GetString(rec.data).Failure? ==> r == Failure(GetString(rec.data).error)
    ensures GetString(rec.data).Success? ==>
      var units := Encode(Replaced(GetString(rec.data).value.text, from, to));
      (r.Success? <==> WrapI32(2 * |units|) != MinI32)
  {
    var seg :- GetString(rec.data);
    Rebuild(rec, seg.oldSize, Encode(Replaced(seg.text, from, to)))
  }

  /** Once the string is read, `rebase` is the rebuild around its
      replacement. */
  lemma RebaseBuilds(rec: FileRec, from: Text, to: Text, seg: Segment)
    requires GetString(rec.data) == Success(seg)
    ensures Rebase(rec, from, to) == Rebuild(rec, seg.oldSize, Encode(Replaced(seg.text, from, to)))
  {
  }

  /** `rebase` only replaces the payload: type and extra data are kept. */
  lemma RebaseKeepsTypeAndExtra(rec: FileRec, from: Text, to: Text)
    requires Rebase(rec, from, to).Success?
    ensures Rebase(rec, from, to).value.typ == rec.typ
    ensures Rebase(rec, from, to).value.extraData == rec.extraData
  {
    var seg := GetString(rec.data).value;
    RebaseBuilds(rec, from, to, seg);
    RebuildKeeps(rec, seg.oldSize, Encode(Replaced(seg.text, from, to)));
  }

  /** The new payload is the old one less the old string's bytes plus the
      new string's. */
  lemma RebaseLength(rec: FileRec, from: Text, to: Text)
    requires Rebase(rec, from, to).Success?
    ensures var seg := GetString(rec.data).value;
      var newSize := 2 * |Encode(Replaced(seg.text, from, to))|;
      |Rebase(rec, from, to).value.data| == |rec.data| - seg.oldSize + newSize
  {
    var seg := GetString(rec.data).value;
    RebaseBuilds(rec, from, to, seg);
    RebuildKeeps(rec, seg.oldSize, Encode(Replaced(seg.text, from, to)));
  }

  /** The new payload starts with the lead sentinel and the size field
      `-(new_size as i32)`, which is minus the new byte length whenever
      that length fits an `i32`. */
  lemma RebaseHead(rec: FileRec, from: Text, to: Text)
    requires Rebase(rec, from, to).Success?
    ensures var seg := GetString(rec.data).value;
      var newSize := 2 * |Encode(Replaced(seg.text, from, to))|;
      var data' := Rebase(rec, from, to).value.data;
      && data'[0] == LeadSentinel
      && I32At(data', 1) == -WrapI32(newSize)
      && (newSize <= MaxI32 ==> I32At(data', 1) == -newSize)
  {
    var seg := GetString(rec.data).value;
    RebaseBuilds(rec, from, to, seg);
    RebuildHead(rec, seg.oldSize, Encode(Replaced(seg.text, from, to)));
  }

  /** The new UTF-16 bytes follow the size field, and every byte after the
      old string reappears unchanged after them, shifted by the difference
      of the two byte lengths. */
  lemma RebaseSplices(rec: FileRec, from: Text, to: Text)
    requires Rebase(rec, from, to).Success?
    ensures var seg := GetString(rec.data).value;
      var units := Encode(Replaced(seg.text, from, to));
      var newSize := 2 * |units|;
      var data' := Rebase(rec, from, to).value.data;
      && data'[SegmentStart..SegmentStart + newSize] == UnitsToBytes(units)
      && data'[SegmentStart + newSize..] == rec.data[SegmentStart + seg.oldSize..]
  {
    var seg := GetString(rec.data).value;
    RebaseBuilds(rec, from, to, seg);
    RebuildBody(rec, seg.oldSize, Encode(Replaced(seg.text, from, to)));
  }

  /** A path that does not start with `from` is left alone: the rebuilt
      payload is byte-for-byte the original one. */
  lemma RebaseNoMatchIsIdentity(rec: FileRec, from: Text, to: Text)
    requires GetString(rec.data).Success?
    requires !StartsWith(GetString(rec.data).value.text, from)
    ensures Rebase(rec, from, to) == Success(rec)
  {
    var seg := GetString(rec.data).value;
    var units := Encode(seg.text);
    var tail := rec.data[SegmentStart + seg.oldSize..];
    RebaseBuilds(rec, from, to, seg);
    assert Frame(-(2 * |units|), UnitsToBytes(units), tail) == rec.data by {
      GetStringReframes(rec.data);
    }
    RebuildRestores(rec, rec, seg.oldSize, units, tail);
  }

  /** When the path starts with `from`, the rebased path is `to` followed
      by the rest of the path, and the payload grows by exactly the
      difference between the UTF-16 byte lengths of `to` and `from`. */
  lemma RebaseMatchReplacesPrefix(rec: FileRec, from: Text, to: Text)
    requires Rebase(rec, from, to).Success?
    requires StartsWith(GetString(rec.data).value.text, from)
    ensures var path := GetString(rec.data).value.text;
      Replaced(path, from, to) == to + path[|from|..]
    ensures |Rebase(rec, from, to).value.data| == |rec.data| + 2 * |Encode(to)| - 2 * |Encode(from)|
  {
    var seg := GetString(rec.data).value;
    var path := seg.text;
    GetStringReframes(rec.data);
    RebaseLength(rec, from, to);
    assert path == from + path[|from|..];
    EncodeAppend(from, path[|from|..]);
    EncodeAppend(to, path[|from|..]);
  }
}

/** The embedded-string codec with the three gaps of `get_string` and
    `rebase` closed (see the Findings in the README): the trailing sentinel
    must lie after the string, the rebased string must not be empty, and its
    byte length must fit the `i32` size field. With these checks, a rebased
    payload always decodes again. */
module CheckedRebase {
  import opened Wrappers
  import opened Bytes
  import opened Errors
  import opened Utf16
  import opened Records
  import opened EmbeddedString

  /** `get_string`, additionally rejecting a payload whose last byte, the
      trailing sentinel, is also the last byte of the string. */
  function GetStringChecked(data: seq<byte>): (r: Result<Segment, Error>)
    ensures r.Success? ==> r == GetString(data) && SegmentStart + r.value.oldSize < |data|
    ensures GetString(data).Success? && SegmentStart + GetString(data).value.oldSize < |data| ==> r.Success?
  {
    var seg :- GetString(data);
    if SegmentStart + seg.oldSize == |data| then Failure(BadTrailSentinel) else Success(seg)
  }

  /** `rebase`, refusing a result that the size field cannot describe. */
  function RebaseChecked(rec: FileRec, from: Text, to: Text): (r: Result<FileRec, Error>)
    ensures GetStringChecked(rec.data).Success? ==>
      var path := Replaced(GetStringChecked(rec.data).value.text, from, to);
      (r.Success? <==> 0 < |path| && 2 * |Encode(path)| <= MaxI32)
  {
    var seg :- GetStringChecked(rec.data);
    var units := Encode(Replaced(seg.text, from, to));
    if |units| == 0 then Failure(EmptyText)
    else if 2 * |units| > MaxI32 then Failure(SizeOverflow)
    else Rebuild(rec, seg.oldSize, units)
  }

  /** The result of a checked rebase of a payload whose string was read
      as `seg`. */
  lemma RebaseCheckedOfSegment(rec: FileRec, from: Text, to: Text, seg: Segment)
    requires GetStringChecked(rec.data) == Success(seg)
    requires 0 < |Encode(Replaced(seg.text, from, to))|
    requires 2 * |Encode(Replaced(seg.text, from, to))| <= MaxI32
    ensures RebaseChecked(rec, from, to) == Rebuild(rec, seg.oldSize, Encode(Replaced(seg.text, from, to)))
  {
  }

  /** Where the checked rebase succeeds, it builds the same record as the
      source's `rebase`. */
  lemma RebaseCheckedAgrees(rec: FileRec, from: Text, to: Text)
    requires RebaseChecked(rec, from, to).Success?
    ensures Rebase(rec, from, to) == RebaseChecked(rec, from, to)
  {
    var seg := GetStringChecked(rec.data).value;
    RebaseBuilds(rec, from, to, seg);
    RebaseCheckedOfSegment(rec, from, to, seg);
  }

  /** A rebased payload decodes to the rebased path, its size field holds
      the new byte length, and the trailing sentinel still follows it. */
  lemma RebaseCheckedRoundTrip(rec: FileRec, from: Text, to: Text)
    requires RebaseChecked(rec, from, to).Success?
    ensures var path := Replaced(GetString(rec.data).value.text, from, to);
      GetStringChecked(RebaseChecked(rec, from, to).value.data)
        == Success(Segment(path, 2 * |Encode(path)|))
  {
    var seg := GetStringChecked(rec.data).value;
    var path := Replaced(seg.text, from, to);
    assert rec.data[|rec.data| - 1] == TrailSentinel by {
      GetStringSucceedsIff(rec.data);
    }
    RebaseCheckedOfSegment(rec, from, to, seg);
    RebuildReadsBack(rec, seg.oldSize, path);
  }

  /** Rebuilding a payload around a non-empty path whose byte length fits
      the size field, over a non-empty rest that ends in the trailing
      sentinel, gives a payload the checked read returns that path from. */
  lemma RebuildReadsBack(rec: FileRec, oldSize: nat, path: Text)
    requires SegmentStart + oldSize < |rec.data| && rec.data[|rec.data| - 1] == TrailSentinel
    requires 0 < |path| && 2 * |Encode(path)| <= MaxI32
    ensures Rebuild(rec, oldSize, Encode(path)).Success?
    ensures GetStringChecked(Rebuild(rec, oldSize, Encode(path)).value.data)
      == Success(Segment(path, 2 * |Encode(path)|))
  {
    var tail := rec.data[SegmentStart + oldSize..];
    var n := 2 * |Encode(path)|;
    RebuildFrames(rec, oldSize, Encode(path));
    var data' := Rebuild(rec, oldSize, Encode(path)).value.data;
    assert GetString(data') == Success(Segment(path, n)) && SegmentStart + n < |data'| by {
      assert tail[|tail| - 1] == TrailSentinel;
      FrameGetString(path, tail);
    }
    CheckedOfRead(data', Segment(path, n));
  }

  /** Within the size field's range, a rebuilt payload is the frame of the
      new code units over the bytes after the old string. */
  lemma RebuildFrames(rec: FileRec, oldSize: nat, units: seq<Unit>)
    requires SegmentStart + oldSize <= |rec.data| && 2 * |units| <= MaxI32
    ensures Rebuild(rec, oldSize, units)
      == Success(rec.(data := Frame(-(2 * |units|), UnitsToBytes(units), rec.data[SegmentStart + oldSize..])))
  {
  }

  /** The checked read agrees with `get_string` on a payload whose string
      ends before its last byte. */
  lemma CheckedOfRead(data: seq<byte>, seg: Segment)
    requires GetString(data) == Success(seg) && SegmentStart + seg.oldSize < |data|
    ensures GetStringChecked(data) == Success(seg)
  {
  }

  /** The source's `rebase` builds a payload that `get_string` reads back
      as the rebased path whenever none of the three gaps arises: the
      trailing sentinel lies after the old string, and the new path is
      non-empty and short enough for the size field. */
  lemma RebaseReadsBack(rec: FileRec, from: Text, to: Text)
    requires GetString(rec.data).Success?
    requires var seg := GetString(rec.data).value;
      var path := Replaced(seg.text, from, to);
      SegmentStart + seg.oldSize < |rec.data| && 0 < |path| && 2 * |Encode(path)| <= MaxI32
    ensures Rebase(rec, from, to).Success?
    ensures var path := Replaced(GetString(rec.data).value.text, from, to);
      GetString(Rebase(rec, from, to).value.data) == Success(Segment(path, 2 * |Encode(path)|))
  {
    RebaseCheckedAgrees(rec, from, to);
    RebaseCheckedRoundTrip(rec, from, to);
  }

  /** A checked read yields a non-empty string whose byte length fits the
      size field. */
  lemma GetStringCheckedSize(data: seq<byte>)
    requires GetStringChecked(data).Success?
    ensures var seg := GetStringChecked(data).value;
      0 < |Encode(seg.text)| && 2 * |Encode(seg.text)| == seg.oldSize <= MaxI32
  {
    GetStringReframes(data);
  }

  /** A checked rebase keeps the type, the extra data and every payload
      byte after the string. */
  lemma RebaseCheckedKeepsTail(rec: FileRec, from: Text, to: Text)
    requires RebaseChecked(rec, from, to).Success?
    ensures var seg := GetStringChecked(rec.data).value;
      var n' := 2 * |Encode(Replaced(seg.text, from, to))|;
      var rec' := RebaseChecked(rec, from, to).value;
      && rec'.typ == rec.typ && rec'.extraData == rec.extraData
      && SegmentStart + n' <= |rec'.data|
      && rec'.data[SegmentStart + n'..] == rec.data[SegmentStart + seg.oldSize..]
  {
    var seg := GetStringChecked(rec.data).value;
    var units := Encode(Replaced(seg.text, from, to));
    RebaseCheckedOfSegment(rec, from, to, seg);
    RebuildKeeps(rec, seg.oldSize, units);
    RebuildBody(rec, seg.oldSize, units);
  }

  /** Rebasing a rebased record back from `to` to `from` rebuilds it around
      the original path. */
  lemma RebaseCheckedBack(rec: FileRec, from: Text, to: Text)
    requires RebaseChecked(rec, from, to).Success?
    requires StartsWith(GetString(rec.data).value.text, from)
    ensures var path := GetStringChecked(rec.data).value.text;
      var n' := 2 * |Encode(Replaced(path, from, to))|;
      var rec' := RebaseChecked(rec, from, to).value;
      && SegmentStart + n' <= |rec'.data|
      && RebaseChecked(rec', to, from) == Rebuild(rec', n', Encode(path))
  {
    var seg := GetStringChecked(rec.data).value;
    var path := seg.text;
    var path' := Replaced(path, from, to);
    var n' := 2 * |Encode(path')|;
    var rec' := RebaseChecked(rec, from, to).value;
    ReplacedInverse(path, from, to);
    GetStringCheckedSize(rec.data);
    RebaseCheckedRoundTrip(rec, from, to);
    RebaseCheckedOfSegment(rec', to, from, Segment(path', n'));
  }

  /** Rebasing from `from` to `to` and then back from `to` to `from`
      restores the original payload byte for byte. */
  lemma RebaseCheckedInverse(rec: FileRec, from: Text, to: Text)
    requires RebaseChecked(rec, from, to).Success?
    requires StartsWith(GetString(rec.data).value.text, from)
    ensures RebaseChecked(RebaseChecked(rec, from, to).value, to, from) == Success(rec)
  {
    var seg := GetStringChecked(rec.data).value;
    var path := seg.text;
    var n' := 2 * |Encode(Replaced(path, from, to))|;
    var rec' := RebaseChecked(rec, from, to).value;
    var tail := rec.data[SegmentStart + seg.oldSize..];
    assert && rec'.typ == rec.typ && rec'.extraData == rec.extraData
           && SegmentStart + n' <= |rec'.data| && rec'.data[SegmentStart + n'..] == tail by {
      RebaseCheckedKeepsTail(rec, from, to);
    }
    assert RebaseChecked(rec', to, from) == Rebuild(rec', n', Encode(path)) by {
      RebaseCheckedBack(rec, from, to);
    }
    assert && 2 * |Encode(path)| <= MaxI32
           && rec.data == Frame(-(2 * |Encode(path)|), UnitsToBytes(Encode(path)), tail) by {
      GetStringReframes(rec.data);
      GetStringCheckedSize(rec.data);
    }
    RebuildRestores(rec, rec', n', Encode(path), tail);
  }
}

=== FILE: errors.dfy ===
/** The reasons the uninstall-log codec rejects its input. Each one stands for
    a panic or a failed `expect` in the decoder; none of them is recoverable. */
module Errors {

  datatype Error =
    | ShortRead               // a read ran past the end of the input
    | InvalidHeaderText       // a fixed-width header text field is not valid text
    | ChecksumMismatch        // the stored CRC-32 differs from the computed one
    | UnrecognizedMagic       // the header id is neither of the two magic strings
    | UnsupportedVersion      // the header version is newer than the decoder knows
    | OversizedPayload        // a record declares more than the payload ceiling
    | UnrecognizedRecordType  // a record's type code is not one of the 17 known
    | BadLeadSentinel         // an embedded string does not start with 0xFE
    | NonNegativeSize         // an embedded string's size field is not negative
    | BadTrailSentinel        // a payload does not end with 0xFF
    | SizeOverflow            // a size does not fit, or negating it overflows, an i32
    | OddSize                 // an embedded string's byte length is odd
    | SegmentOutOfRange       // an embedded string runs past the payload's end
    | InvalidUtf16            // an embedded string holds an unpaired surrogate
    | EmptyText               // an embedded string would be empty (see Findings)
}

=== FILE: findings.dfy ===
/** Concrete payloads on which `FileRec::rebase`, as written, produces a
    payload that `FileRec::get_string` then rejects, and on which the checked
    codec of `CheckedRebase` refuses instead. */
module Findings {
  import opened Wrappers
  import opened Bytes
  import opened Errors
  import opened Utf16
  import opened Records
  import opened EmbeddedString
  import opened CheckedRebase

  /** The size field -2, as little-endian bytes. */
  const MinusTwo: seq<byte> := [0xFE, 0xFF, 0xFF, 0xFF]

  /** A payload whose one-unit string U+FF01 ends exactly where the payload
      does: its high byte 0xFF doubles as the trailing sentinel. */
  const SharedSentinel: seq<byte> := [LeadSentinel] + MinusTwo + [0x01, 0xFF]

  /** A payload holding the path "a", then the trailing sentinel. */
  const PathA: seq<byte> := [LeadSentinel] + MinusTwo + [0x61, 0x00, TrailSentinel]

  lemma MinusTwoBytes()
    ensures EncodeI32(-2) == MinusTwo && I32At(MinusTwo, 0) == -2
  {
    EncodeI32At(MinusTwo, 0);
  }

  /** The string of `PathA` is "a", two bytes long. */
  lemma PathAString()
    ensures GetString(PathA) == Success(Segment([0x61], 2))
    ensures GetStringChecked(PathA) == Success(Segment([0x61], 2))
  {
    MinusTwoBytes();
    assert I32At(PathA, 1) == I32At(MinusTwo, 0);
    assert PathA[SegmentStart..SegmentStart + 2] == [0x61, 0x00];
    assert BytesToUnits([0x61, 0x00]) == [0x61];
  }

  /** `get_string` only checks that the payload's last byte is 0xFF, not
      that it lies after the string: it accepts `SharedSentinel`, and
      `rebase` then copies the (empty) rest after the old string, so the
      rebased payload ends in the new string's last byte and `get_string`
      rejects it. The checked codec refuses the payload up front. */
  lemma SharedSentinelIsLost(typ: RecTyp, extraData: u32)
    ensures var rec := FileRec(typ, extraData, SharedSentinel);
      && GetString(rec.data) == Success(Segment([0xFF01], 2))
      && Rebase(rec, [0xFF01], [0x61]) == Success(FileRec(typ, extraData, [LeadSentinel] + MinusTwo + [0x61, 0x00]))
      && GetString(Rebase(rec, [0xFF01], [0x61]).value.data) == Failure(BadTrailSentinel)
      && RebaseChecked(rec, [0xFF01], [0x61]) == Failure(BadTrailSentinel)
  {
    var rec := FileRec(typ, extraData, SharedSentinel);
    MinusTwoBytes();
    assert I32At(SharedSentinel, 1) == I32At(MinusTwo, 0);
    assert SharedSentinel[SegmentStart..SegmentStart + 2] == [0x01, 0xFF];
    assert BytesToUnits([0x01, 0xFF]) == [0xFF01];
    assert GetString(rec.data) == Success(Segment([0xFF01], 2));
    assert Encode([0x61]) == [0x61];
    assert UnitsToBytes([0x61]) == [0x61, 0x00] by {
      EncodeU16At([0x61, 0x00], 0);
    }
    assert Rebuild(rec, 2, [0x61]).value.data == [LeadSentinel] + MinusTwo + [0x61, 0x00];
  }

  /** A rebased path of 2^31 BMP scalars is 2^32 bytes long: `new_size as
      i32` keeps its low 32 bits, which are 0, so `rebase` writes the size
      field 0 and `get_string` rejects the payload it built. The checked
      codec reports the overflow instead. */
  lemma SizeFieldWraps(typ: RecTyp, extraData: u32)
    ensures var rec := FileRec(typ, extraData, PathA);
      var to: Text := seq(0x8000_0000, i => 0x61);
      && Rebase(rec, [0x61], to).Success?
      && I32At(Rebase(rec, [0x61], to).value.data, 1) == 0
      && GetString(Rebase(rec, [0x61], to).value.data) == Failure(NonNegativeSize)
      && RebaseChecked(rec, [0x61], to) == Failure(SizeOverflow)
  {
    var rec := FileRec(typ, extraData, PathA);
    var to: Text := seq(0x8000_0000, i => 0x61);
    PathAString();
    assert Replaced([0x61], [0x61], to) == to;
    EncodeBmpLength(to);
    assert WrapI32(2 * |Encode(to)|) == 0;
    RebaseBuilds(rec, [0x61], to, Segment([0x61], 2));
    RebuildHead(rec, 2, Encode(to));
  }

  /** Rebasing the path "a" from "a" to "" leaves an empty path: `rebase`
      writes the size field 0, which `get_string` rejects as not negative.
      The checked codec refuses the empty path. */
  lemma EmptyPathUnreadable(typ: RecTyp, extraData: u32)
    ensures var rec := FileRec(typ, extraData, PathA);
      && Rebase(rec, [0x61], []) == Success(FileRec(typ, extraData, [LeadSentinel] + EncodeI32(0) + [TrailSentinel]))
      && GetString(Rebase(rec, [0x61], []).value.data) == Failure(NonNegativeSize)
      && RebaseChecked(rec, [0x61], []) == Failure(EmptyText)
  {
    var rec := FileRec(typ, extraData, PathA);
    PathAString();
    assert Replaced([0x61], [0x61], []) == [];
    RebaseBuilds(rec, [0x61], [], Segment([0x61], 2));
    RebuildHead(rec, 2, []);
    EmptyPathRebuilt(typ, extraData);
  }

  /** Rebuilding `PathA` around no code units keeps only the frame and the
      trailing sentinel. */
  lemma EmptyPathRebuilt(typ: RecTyp, extraData: u32)
    ensures Rebuild(FileRec(typ, extraData, PathA), 2, [])
      == Success(FileRec(typ, extraData, [LeadSentinel] + EncodeI32(0) + [TrailSentinel]))
  {
    var tail := [TrailSentinel];
    assert UnitsToBytes([]) == [];
    assert |PathA| == SegmentStart + 3 && PathA[SegmentStart + 2] == TrailSentinel;
    assert PathA[SegmentStart + 2..] == tail;
    var none: seq<Unit> := [];
    assert Frame(-(2 * |none|), UnitsToBytes(none), tail) == [LeadSentinel] + EncodeI32(0) + tail;
    RebuildRestores(FileRec(typ, extraData, [LeadSentinel] + EncodeI32(0) + tail),
      FileRec(typ, extraData, PathA), 2, none, tail);
  }
}

=== FILE: header.dfy ===
/** The 448-byte uninstall-log header (`Header::from_reader`): three
    fixed-width text fields, four little-endian integers, a reserved gap and a
    CRC-32 over everything before it. The CRC-32 routine and the text-field
    reader are not part of this model; they are supplied by the caller as the
    functions `crc32` and `readText`. */
module LogHeader {
  import opened Wrappers
  import opened Bytes
  import opened Errors
  import opened Stream

  const HeaderSize: nat := 448
  const Id32: string := "Inno Setup Uninstall Log (b)"
  const Id64: string := "Inno Setup Uninstall Log (b) 64-bit"
  const HighestSupportedVersion: int := 1048

  /** Widths of the three text fields and of the reserved gap. */
  const IdWidth: nat := 64
  const AppIdWidth: nat := 128
  const AppNameWidth: nat := 128
  const ReservedWidth: nat := 108

  /** Absolute offsets of the fields within the header block. */
  const AppIdOffset: nat := 64
  const AppNameOffset: nat := 192
  const VersionOffset: nat := 320
  const NumRecsOffset: nat := 324
  const EndOffsetOffset: nat := 328
  const FlagsOffset: nat := 332
  const CrcOffset: nat := 444

  datatype Header = Header(
    id: string,
    appId: string,
    appName: string,
    version: i32,
    numRecs: nat,     // a `usize`: the stored i32 sign-extended to 64 bits
    endOffset: u32,
    flags: u32,
    crc: u32)

  /** `strings::read_utf8_string(reader, width)`: consumes a `width`-byte
      window and interprets it with `readText`. */
  function ReadText(s: seq<byte>, width: nat, readText: seq<byte> -> Option<string>)
    : (r: Result<Taken<string>, Error>)
    ensures r.Success? <==> width <= |s| && readText(s[..width]).Some?
    ensures r.Success? ==> r.value.value == readText(s[..width]).value && r.value.rest == s[width..]
  {
    var w :- ReadExact(s, width);
    var text :- readText(w.value).ToResult(InvalidHeaderText);
    Success(Taken(text, w.rest))
  }

  /** The conditions under which a block is accepted as a header. */
  predicate Acceptable(input: seq<byte>, readText: seq<byte> -> Option<string>, crc32: seq<byte> -> u32)
    requires HeaderSize <= |input|
  {
    && readText(input[..AppIdOffset]).Some?
    && readText(input[AppIdOffset..AppNameOffset]).Some?
    && readText(input[AppNameOffset..VersionOffset]).Some?
    && crc32(input[..CrcOffset]) == U32At(input, CrcOffset)
    && readText(input[..AppIdOffset]).value in {Id32, Id64}
    && I32At(input, VersionOffset) <= HighestSupportedVersion
  }

  /** `Header::from_reader`: reads the 448-byte block field by field, then
      checks the CRC, the magic id and the version, in that order. */
  function FromReader(input: seq<byte>, readText: seq<byte> -> Option<string>, crc32: seq<byte> -> u32)
    : (r: Result<Taken<Header>, Error>)
    ensures |input| < HeaderSize ==> r == Failure(ShortRead)
    ensures r.Success? <==> HeaderSize <= |input| && Acceptable(input, readText, crc32)
    ensures r.Success? ==>
      var h := r.value.value;
      && readText(input[..AppIdOffset]) == Some(h.id)
      && readText(input[AppIdOffset..AppNameOffset]) == Some(h.appId)
      && readText(input[AppNameOffset..VersionOffset]) == Some(h.appName)
      && h.version == I32At(input, VersionOffset)
      && h.numRecs == UsizeFromI32(I32At(input, NumRecsOffset))
      && h.endOffset == U32At(input, EndOffsetOffset)
      && h.flags == U32At(input, FlagsOffset)
      && h.crc == U32At(input, CrcOffset)
      && r.value.rest == input[HeaderSize..]
  {
    var block :- ReadExact(input, HeaderSize);
    var buf := block.value;
    BlockLayout(input, buf);
    var id :- ReadText(buf, IdWidth, readText);
    var appId :- ReadText(id.rest, AppIdWidth, readText);
    var appName :- ReadText(appId.rest, AppNameWidth, readText);
    // The block holds 448 bytes, so none of the integer reads can run short.
    var version := TakeI32(appName.rest);
    var numRecs := TakeI32(version.rest);
    var endOffset := TakeU32(numRecs.rest);
    var flags := TakeU32(endOffset.rest);
    var reserved := TakeBytes(flags.rest, ReservedWidth);
    var crc := TakeU32(reserved.rest);
    if crc32(buf[..HeaderSize - 4]) != crc.value then Failure(ChecksumMismatch)
    else if id.value != Id32 && id.value != Id64 then Failure(UnrecognizedMagic)
    else if version.value > HighestSupportedVersion then Failure(UnsupportedVersion)
    else
      Success(Taken(
        Header(id.value, appId.value, appName.value, version.value,
               UsizeFromI32(numRecs.value), endOffset.value, flags.value, crc.value),
        block.rest))
  }

  /** Reading the fields one after another from the block visits exactly
      the windows at the header's fixed offsets. */
  lemma BlockLayout(input: seq<byte>, buf: seq<byte>)
    requires HeaderSize <= |input| && buf == input[..HeaderSize]
    ensures buf[..IdWidth] == input[..AppIdOffset]
    ensures buf[IdWidth..][..AppIdWidth] == input[AppIdOffset..AppNameOffset]
    ensures buf[IdWidth..][AppIdWidth..] == buf[AppNameOffset..]
    ensures buf[AppNameOffset..][..AppNameWidth] == input[AppNameOffset..VersionOffset]
    ensures buf[AppNameOffset..][AppNameWidth..] == buf[VersionOffset..]
    ensures buf[VersionOffset..][..4] == input[VersionOffset..NumRecsOffset]
    ensures buf[VersionOffset..][4..] == buf[NumRecsOffset..]
    ensures buf[NumRecsOffset..][..4] == input[NumRecsOffset..EndOffsetOffset]
    ensures buf[NumRecsOffset..][4..] == buf[EndOffsetOffset..]
    ensures buf[EndOffsetOffset..][..4] == input[EndOffsetOffset..FlagsOffset]
    ensures buf[EndOffsetOffset..][4..] == buf[FlagsOffset..]
    ensures buf[FlagsOffset..][..4] == input[FlagsOffset..FlagsOffset + 4]
    ensures buf[FlagsOffset..][4..] == buf[FlagsOffset + 4..]
    ensures buf[FlagsOffset + 4..][ReservedWidth..] == buf[CrcOffset..]
    ensures buf[CrcOffset..][..4] == input[CrcOffset..HeaderSize]
    ensures buf[..HeaderSize - 4] == input[..CrcOffset]
  {
  }
}

=== FILE: record.dfy ===
/** One uninstall-log record (`FileRec::from_reader`): a `u16` type code, a
    `u32` value whose meaning depends on the type, a `u32` payload size and
    that many payload bytes. */
module Records {
  import opened Wrappers
  import opened Bytes
  import opened Errors
  import opened Stream

  /** Payload sizes above this are taken to be corrupt. */
  const MaxDataSize: nat := 0x800_0000

  /** Bytes before the payload: type code, extra data and size. */
  const RecordHeaderSize: nat := 10

  /** The 17 record kinds an uninstall log may contain. */
  datatype RecTyp =
    | UserDefined
    | StartInstall
    | EndInstall
    | CompiledCode
    | Run
    | DeleteDirOrFiles
    | DeleteFile
    | DeleteGroupOrItem
    | IniDeleteEntry
    | IniDeleteSection
    | RegDeleteEntireKey
    | RegClearValue
    | RegDeleteKeyIfEmpty
    | RegDeleteValue
    | DecrementSharedCount
    | RefreshFileAssoc
    | MutexCheck

  /** The codes that name a record kind. */
  const KnownCodes: set<u16> :=
    {0x01, 0x10, 0x11, 0x20, 0x80, 0x81, 0x82, 0x83, 0x84, 0x85, 0x86, 0x87, 0x88, 0x89, 0x8A, 0x8B, 0x8C}

  /** The discriminant of each record kind. */
  function Code(t: RecTyp): (c: u16)
    ensures c in KnownCodes
  {
    match t
    case UserDefined => 0x01
    case StartInstall => 0x10
    case EndInstall => 0x11
    case CompiledCode => 0x20
    case Run => 0x80
    case DeleteDirOrFiles => 0x81
    case DeleteFile => 0x82
    case DeleteGroupOrItem => 0x83
    case IniDeleteEntry => 0x84
    case IniDeleteSection => 0x85
    case RegDeleteEntireKey => 0x86
    case RegClearValue => 0x87
    case RegDeleteKeyIfEmpty => 0x88
    case RegDeleteValue => 0x89
    case DecrementSharedCount => 0x8A
    case RefreshFileAssoc => 0x8B
    case MutexCheck => 0x8C
  }

  /** `UninstallRecTyp::from`: defined exactly on the 17 known codes, and the
      kind it returns has the given code as its discriminant. */
  function FromCode(i: u16): (r: Option<RecTyp>)
    ensures r.Some? <==> i in KnownCodes
    ensures r.Some? ==> Code(r.value) == i
  {
    match i
    case 0x01 => Some(UserDefined)
    case 0x10 => Some(StartInstall)
    case 0x11 => Some(EndInstall)
    case 0x20 => Some(CompiledCode)
    case 0x80 => Some(Run)
    case 0x81 => Some(DeleteDirOrFiles)
    case 0x82 => Some(DeleteFile)
    case 0x83 => Some(DeleteGroupOrItem)
    case 0x84 => Some(IniDeleteEntry)
    case 0x85 => Some(IniDeleteSection)
    case 0x86 => Some(RegDeleteEntireKey)
    case 0x87 => Some(RegClearValue)
    case 0x88 => Some(RegDeleteKeyIfEmpty)
    case 0x89 => Some(RegDeleteValue)
    case 0x8A => Some(DecrementSharedCount)
    case 0x8B => Some(RefreshFileAssoc)
    case 0x8C => Some(MutexCheck)
    case _ => None
  }

  /** Every kind's code maps back to that kind. */
  lemma CodeRoundTrip(t: RecTyp)
    ensures FromCode(Code(t)) == Some(t)
  {
  }

  /** Distinct record kinds have distinct codes. */
  lemma CodeInjective(a: RecTyp, b: RecTyp)
    ensures Code(a) == Code(b) ==> a == b
  {
    CodeRoundTrip(a);
    CodeRoundTrip(b);
  }

  datatype FileRec = FileRec(typ: RecTyp, extraData: u32, data: seq<byte>)

  /** `FileRec::from_reader`: reads code, extra data and size; rejects an
      oversized declared size before reading any payload; reads the payload;
      and only then maps the type code. */
  function FromReader(input: seq<byte>): (r: Result<Taken<FileRec>, Error>)
    ensures r.Success? <==>
      && RecordHeaderSize <= |input|
      && U32At(input, 6) <= MaxDataSize
      && RecordHeaderSize + U32At(input, 6) <= |input|
      && U16At(input, 0) in KnownCodes
    ensures RecordHeaderSize <= |input| && U32At(input, 6) > MaxDataSize ==> r == Failure(OversizedPayload)
    ensures r.Success? ==>
      var rec := r.value.value;
      && |rec.data| == U32At(input, 6)
      && Code(rec.typ) == U16At(input, 0)
      && rec.extraData == U32At(input, 2)
      && rec.data == input[RecordHeaderSize..RecordHeaderSize + |rec.data|]
      && r.value.rest == input[RecordHeaderSize + |rec.data|..]
  {
    var typ :- ReadU16(input);
    var extraData :- ReadU32(typ.rest);
    var dataSize :- ReadU32(extraData.rest);
    if dataSize.value > MaxDataSize then Failure(OversizedPayload)
    else
      var data :- ReadExact(dataSize.rest, dataSize.value);
      var t :- FromCode(typ.value).ToResult(UnrecognizedRecordType);
      Success(Taken(FileRec(t, extraData.value, data.value), data.rest))
  }

  /** The bytes a record occupies in the log: the layout `FromReader`
      expects. */
  function Serialize(rec: FileRec): seq<byte>
    requires |rec.data| <= MaxDataSize
  {
    EncodeU16(Code(rec.typ)) + EncodeU32(rec.extraData) + EncodeU32(|rec.data|) + rec.data
  }

  /** Reading a serialized record gives it back and consumes exactly its
      `10 + |data|` bytes, whatever follows it. */
  lemma ReadSerialized(rec: FileRec, rest: seq<byte>)
    requires |rec.data| <= MaxDataSize
    ensures FromReader(Serialize(rec) + rest) == Success(Taken(rec, rest))
  {
    var input := Serialize(rec) + rest;
    CodeRoundTrip(rec.typ);
    assert U16At(input, 0) == U16At(EncodeU16(Code(rec.typ)), 0);
    assert U32At(input, 2) == U32At(EncodeU32(rec.extraData), 0);
    assert U32At(input, 6) == U32At(EncodeU32(|rec.data|), 0);
    assert input[RecordHeaderSize..RecordHeaderSize + |rec.data|] == rec.data;
    assert input[RecordHeaderSize + |rec.data|..] == rest;
  }

  /** Whatever `FromReader` accepts is a serialized record followed by the
      unread rest of the input. */
  lemma SerializedRead(input: seq<byte>)
    requires FromReader(input).Success?
    ensures var t := FromReader(input).value;
      input == Serialize(t.value) + t.rest
  {
    var t := FromReader(input).value;
    var code := ReadU16(input).value;
    var extraData := ReadU32(code.rest).value;
    var dataSize := ReadU32(extraData.rest).value;
    var data := ReadExact(dataSize.rest, dataSize.value).value;
    assert t.value == FileRec(t.value.typ, extraData.value, data.value) && t.rest == data.rest;
    assert Code(t.value.typ) == code.value && |data.value| == dataSize.value;
    assert input == EncodeU16(code.value) + EncodeU32(extraData.value) + EncodeU32(dataSize.value) + data.value + data.rest;
  }
}

=== FILE: stream.dfy ===
/** A byte reader in the style of `&[u8]` implementing `Read`: reading takes
    bytes from the front of the remaining input, and a read that asks for more
    than is left is a short read. The `Take*` forms are the same reads where
    the caller already knows that enough bytes remain. */
module Stream {
  import opened Wrappers
  import opened Bytes
  import opened Errors

  /** A value read from the input, and what remains of the input after it. */
  datatype Taken<T> = Taken(value: T, rest: seq<byte>)

  function TakeBytes(s: seq<byte>, n: nat): (t: Taken<seq<byte>>)
    requires n <= |s|
    ensures t.value + t.rest == s && |t.value| == n
  {
    Taken(s[..n], s[n..])
  }

  function TakeU32(s: seq<byte>): (t: Taken<u32>)
    requires 4 <= |s|
  {
    Taken(U32At(s, 0), s[4..])
  }

  function TakeI32(s: seq<byte>): (t: Taken<i32>)
    requires 4 <= |s|
  {
    Taken(I32At(s, 0), s[4..])
  }

  /** `read_exact` into an `n`-byte buffer: on success the input is the
      `n` bytes read followed by what remains. */
  function ReadExact(s: seq<byte>, n: nat): (r: Result<Taken<seq<byte>>, Error>)
    ensures r.Success? <==> n <= |s|
    ensures r.Success? ==> |r.value.value| == n && r.value.value + r.value.rest == s
    ensures r.Failure? ==> r.error == ShortRead
  {
    if n <= |s| then Success(TakeBytes(s, n)) else Failure(ShortRead)
  }

  /** `read_u16` (little-endian): on success the input is the encoding of
      the value read followed by what remains. */
  function ReadU16(s: seq<byte>): (r: Result<Taken<u16>, Error>)
    ensures r.Success? <==> 2 <= |s|
    ensures r.Success? ==> EncodeU16(r.value.value) + r.value.rest == s
    ensures r.Failure? ==> r.error == ShortRead
  {
    if 2 <= |s| then
      EncodeU16At(s, 0);
      assert s[..2] + s[2..] == s;
      Success(Taken(U16At(s, 0), s[2..]))
    else Failure(ShortRead)
  }

  /** `read_u32` (little-endian): on success the input is the encoding of
      the value read followed by what remains. */
  function ReadU32(s: seq<byte>): (r: Result<Taken<u32>, Error>)
    ensures r.Success? <==> 4 <= |s|
    ensures r.Success? ==> EncodeU32(r.value.value) + r.value.rest == s
    ensures r.Failure? ==> r.error == ShortRead
  {
    if 4 <= |s| then
      EncodeU32At(s, 0);
      assert s[..4] + s[4..] == s;
      Success(TakeU32(s))
    else Failure(ShortRead)
  }

  /** `read_exact` of a window's length reads back that window and leaves
      whatever follows it. */
  lemma ReadExactWindow(w: seq<byte>, rest: seq<byte>)
    ensures ReadExact(w + rest, |w|) == Success(Taken(w, rest))
  {
  }

  /** `read_u16` reads back the two bytes `write_u16` writes. */
  lemma ReadU16Encoded(v: u16, rest: seq<byte>)
    ensures ReadU16(EncodeU16(v) + rest) == Success(Taken(v, rest))
  {
  }

  /** `read_u32` reads back the four bytes `write_u32` writes. */
  lemma ReadU32Encoded(v: u32, rest: seq<byte>)
    ensures ReadU32(EncodeU32(v) + rest) == Success(Taken(v, rest))
  {
  }
}

=== FILE: utf16.dfy ===
/** UTF-16 as used by the embedded-string codec: text is a sequence of Unicode
    scalar values (what a Rust `String` holds), encoded to 16-bit code units
    (`str::encode_utf16`) and decoded back (`String::from_utf16`, which
    rejects unpaired surrogates); code units travel as little-endian byte
    pairs (`read_u16_into` / `write_u16_into`). */
module Utf16 {
  import opened Wrappers
  import opened Bytes

  /** A Unicode scalar value: a code point that is not a surrogate. */
  type Scalar = c: int | 0 <= c < 0xD800 || 0xE000 <= c < 0x11_0000

  type Text = seq<Scalar>

  type Unit = u16

  predicate IsHighSurrogate(u: Unit) {
    0xD800 <= u < 0xDC00
  }

  predicate IsLowSurrogate(u: Unit) {
    0xDC00 <= u < 0xE000
  }

  /** The one or two code units of a scalar value. */
  function EncodeScalar(c: Scalar): (us: seq<Unit>)
    ensures 1 <= |us| <= 2
    ensures |us| == 1 <==> c < 0x1_0000
  {
    if c < 0x1_0000 then [c]
    else
      var v := c as int - 0x1_0000;
      [0xD800 + v / 0x400, 0xDC00 + v % 0x400]
  }

  /** The scalar value of a surrogate pair. */
  function Combine(hi: Unit, lo: Unit): Scalar
    requires IsHighSurrogate(hi) && IsLowSurrogate(lo)
  {
    0x1_0000 + (hi - 0xD800) * 0x400 + (lo - 0xDC00)
  }

  /** A surrogate pair encodes the scalar value it combines to. */
  lemma EncodeCombine(hi: Unit, lo: Unit)
    requires IsHighSurrogate(hi) && IsLowSurrogate(lo)
    ensures EncodeScalar(Combine(hi, lo)) == [hi, lo]
  {
    var v := Combine(hi, lo) as int - 0x1_0000;
    assert v == (hi - 0xD800) * 0x400 + (lo - 0xDC00);
    assert v / 0x400 == hi - 0xD800 && v % 0x400 == lo - 0xDC00;
  }

  /** A scalar value above the Basic Multilingual Plane encodes to a
      surrogate pair that combines back to it. */
  lemma CombineEncode(c: Scalar)
    requires 0x1_0000 <= c
    ensures var us := EncodeScalar(c);
      IsHighSurrogate(us[0]) && IsLowSurrogate(us[1]) && Combine(us[0], us[1]) == c
  {
    var v := c as int - 0x1_0000;
    assert v == v / 0x400 * 0x400 + v % 0x400;
  }

  /** `str::encode_utf16`. */
  function Encode(t: Text): (us: seq<Unit>)
    ensures |t| <= |us| <= 2 * |t|
  {
    if |t| == 0 then [] else EncodeScalar(t[0]) + Encode(t[1..])
  }

  /** `String::from_utf16`: fails on a surrogate that is not part of a
      high-then-low pair. */
  function Decode(us: seq<Unit>): (r: Option<Text>)
    decreases |us|
  {
    if |us| == 0 then Some([])
    else if !IsHighSurrogate(us[0]) && !IsLowSurrogate(us[0]) then
      var rest :- Decode(us[1..]);
      Some([us[0] as Scalar] + rest)
    else if IsHighSurrogate(us[0]) && 2 <= |us| && IsLowSurrogate(us[1]) then
      var rest :- Decode(us[2..]);
      Some([Combine(us[0], us[1])] + rest)
    else None
  }

  /** Decoding undoes encoding: every text survives the round trip. */
  lemma {:induction false} DecodeEncode(t: Text)
    ensures Decode(Encode(t)) == Some(t)
  {
    if |t| > 0 {
      var c := t[0];
      var us := Encode(t);
      DecodeEncode(t[1..]);
      if c < 0x1_0000 {
        assert us[1..] == Encode(t[1..]);
      } else {
        CombineEncode(c);
        assert us[2..] == Encode(t[1..]);
      }
      assert t == [c] + t[1..];
    }
  }

  /** Encoding undoes decoding: a decodable unit sequence is the encoding of
      what it decodes to, so decoding is injective. */
  lemma {:induction false} EncodeDecode(us: seq<Unit>)
    requires Decode(us).Some?
    ensures Encode(Decode(us).value) == us
    decreases |us|
  {
    if |us| > 0 {
      if !IsHighSurrogate(us[0]) && !IsLowSurrogate(us[0]) {
        EncodeDecode(us[1..]);
        EncodeDecodeSingle(us);
      } else {
        EncodeDecode(us[2..]);
        EncodeDecodePair(us);
      }
    }
  }

  /** The step of `EncodeDecode` for a leading unit that is not a surrogate. */
  lemma EncodeDecodeSingle(us: seq<Unit>)
    requires 0 < |us| && !IsHighSurrogate(us[0]) && !IsLowSurrogate(us[0])
    requires Decode(us).Some?
    requires Encode(Decode(us[1..]).value) == us[1..]
    ensures Encode(Decode(us).value) == us
  {
    var t := Decode(us).value;
    assert t[1..] == Decode(us[1..]).value;
    assert us == [us[0]] + us[1..];
  }

  /** The step of `EncodeDecode` for a leading surrogate pair. */
  lemma EncodeDecodePair(us: seq<Unit>)
    requires 0 < |us| && (IsHighSurrogate(us[0]) || IsLowSurrogate(us[0]))
    requires Decode(us).Some?
    requires Encode(Decode(us[2..]).value) == us[2..]
    ensures Encode(Decode(us).value) == us
  {
    var t := Decode(us).value;
    assert t[1..] == Decode(us[2..]).value;
    assert EncodeScalar(t[0]) == us[..2] by {
      EncodeCombine(us[0], us[1]);
    }
    assert us == us[..2] + us[2..];
  }

  /** Encoding is a homomorphism from concatenation of texts to
      concatenation of unit sequences. */
  lemma {:induction false} EncodeAppend(a: Text, b: Text)
    ensures Encode(a + b) == Encode(a) + Encode(b)
  {
    if |a| > 0 {
      EncodeAppend(a[1..], b);
      assert (a + b)[1..] == a[1..] + b;
    } else {
      assert a + b == b;
    }
  }

  /** A text of scalars below U+10000 encodes to one unit per scalar. */
  lemma {:induction false} EncodeBmpLength(t: Text)
    requires forall i :: 0 <= i < |t| ==> t[i] < 0x1_0000
    ensures |Encode(t)| == |t|
  {
    if |t| > 0 {
      EncodeBmpLength(t[1..]);
    }
  }

  /** `write_u16_into`: each unit as two little-endian bytes. */
  function UnitsToBytes(us: seq<Unit>): (bs: seq<byte>)
    ensures |bs| == 2 * |us|
  {
    if |us| == 0 then [] else EncodeU16(us[0]) + UnitsToBytes(us[1..])
  }

  /** `read_u16_into`: consecutive little-endian byte pairs as units. */
  function BytesToUnits(bs: seq<byte>): (us: seq<Unit>)
    requires |bs| % 2 == 0
    ensures 2 * |us| == |bs|
  {
    if |bs| == 0 then [] else [U16At(bs, 0)] + BytesToUnits(bs[2..])
  }

  lemma {:induction false} BytesUnitsRoundTrip(us: seq<Unit>)
    ensures BytesToUnits(UnitsToBytes(us)) == us
  {
    if |us| > 0 {
      var bs := UnitsToBytes(us);
      assert bs[..2] == EncodeU16(us[0]);
      assert bs[2..] == UnitsToBytes(us[1..]);
      BytesUnitsRoundTrip(us[1..]);
      assert us == [us[0]] + us[1..];
    }
  }

  lemma {:induction false} UnitsBytesRoundTrip(bs: seq<byte>)
    requires |bs| % 2 == 0
    ensures UnitsToBytes(BytesToUnits(bs)) == bs
  {
    if |bs| > 0 {
      var us := BytesToUnits(bs);
      assert us[1..] == BytesToUnits(bs[2..]);
      UnitsBytesRoundTrip(bs[2..]);
      EncodeU16At(bs, 0);
      assert bs == bs[..2] + bs[2..];
    }
  }
}

=== FILE: wrappers.dfy ===
/** The two outcome types of the uninstall-log codec. A decoder step either
    yields a value or names the reason the Rust code would have panicked, and
    `:-` threads the first such reason through a sequence of reads. The
    members `IsFailure`, `PropagateFailure` and `Extract` are the ones Dafny's
    `:-` operator requires; `ToResult` is the one conversion the codec adds,
    for the optional results of `UninstallRecTyp::from` and the header's
    text reader. */
module Wrappers {

  datatype Option<+T> = None | Some(value: T) {

    predicate IsFailure() {
      None?
    }

    function PropagateFailure<U>(): Option<U>
      requires None?
    {
      None
    }

    function Extract(): T
      requires Some?
    {
      value
    }

    /** Turns a missing value into the given error. */
    function ToResult<E>(error: E): Result<T, E> {
      match this
      case Some(v) => Success(v)
      case None => Failure(error)
    }
  }

  datatype Result<+R, +E> = Success(value: R) | Failure(error: E) {

    predicate IsFailure() {
      Failure?
    }

    function PropagateFailure<U>(): Result<U, E>
      requires Failure?
    {
      Failure(error)
    }

    function Extract(): R
      requires Success?
    {
      value
    }
  }
}
